=== FILE: README.md ===
# Deploy worker reconciliation, modelled in Dafny

This project models the deployment reconciliation worker of AtomCI
(`core/kuberes/deployworker.go`). Given an application name, the worker:

- checks that the name is not registered in another namespace of the same
  cluster (`checkAppRes`);
- looks the record up and takes the update path (`updateAppRes`) or the create
  path (`createAppRes` and `createKubeAppRes`);
- on the create path, renders the application object, cleans up, creates the
  cluster resource and persists the record. If persisting fails, it compensates;
- runs a best-effort cleanup of same-name records registered under other
  clusters (`deleteApplication`).

Each collaborator is an oracle:

- the application registry;
- the live cluster resources;
- the template renderer;
- `ReconfigureApp`;
- the patch hook.

A `Model.Oracle` value fixes the outcome of every collaborator call of one run.
Calls made once per listed record take their outcome from a sequence, at that
record's position. Each worker step is a pure function from (worker, state,
oracle) to a result. The result holds the returned error (`None` for nil), the
new `Model.State` and the trace of collaborator calls in order. The registry is
a table (`seq<App>`), because its row order fixes the order of the namespaces
in a conflict error. Live resources are a set of (cluster, namespace, name)
triples.

Files:

- `model.dfy`: the data model and call traces.
- `registry.dfy`: the registry queries and mutations.
- `worker.dfy`: the worker's operations.
- `properties.dfy`: lemmas relating runs and paths.

Two quirks of the code are modelled as written:

- **Force never deletes.** The comment at `deployworker.go:33` says force
  deletes the old application. The code fills `exoticns` from the non-empty exotic list, then runs the uninstall
  loop only if `exoticns` is empty. The loop is kept (`Worker.ForceUninstall`).
  `Worker.CheckAppRes` proves that it never runs and that force returns the
  same conflict as no force. The model follows the code, not the comment.
- **Nil extension.** `checkAppRes` reads `wk.extension.Force` without a nil
  check (line 81), but `createAppRes` checks for nil (line 134). So
  `Worker.CheckAppRes` and `Worker.Start` require `ExtensionReadable`: the
  extension is present whenever the exotic query returns records. The create
  path has no such requirement.

## Model

| member | source | states |
|---|---|---|
| Registry.Exotic | core/kuberes/deployworker.go:75 | The exotic list holds exactly the registered records with the requested name, in the worker's cluster and a different namespace (both directions). |
| Registry.Namespaces | core/kuberes/deployworker.go:83-85 | `exoticns` has one entry per exotic record, in order. So it is never empty when the exotic list is non-empty. |
| Worker.NewDeployWorker | core/kuberes/deployworker.go:45-53 | The new worker's cluster-resource handle is bound to the application handle's cluster, with the given namespace and kind. |
| Worker.ForceUninstall | core/kuberes/deployworker.go:88-95 | The force-branch uninstall loop's j-th call is DeleteApp of the j-th exotic record through the worker's own handle, and every call before the last succeeded. On an error the last call is the first failing delete, and the error is a delete-failed error naming that record's namespace, the cluster and the cause. Otherwise every record was deleted, each delete succeeded, and every exotic record is gone from the registry. |
| Worker.CheckAppRes | core/kuberes/deployworker.go:73-109 | Only the exotic query is called and the state is untouched. A failing query returns its error verbatim. Otherwise the result is an error exactly when the exotic list is non-empty, and that error is a conflict naming the app, the cluster and each exotic namespace in order, whatever `Force` is. The precondition `Worker.ExtensionReadable` encodes the nil read of line 81: the extension must be present whenever the query succeeds with a non-empty exotic list. |
| Worker.GetAppByName | core/kuberes/deployworker.go:61 | The lookup finds the record exactly when it is registered. It reports "no rows" only when the query succeeds and the record is missing. Any other error is passed through. |
| Worker.CleanupFrom | core/kuberes/deployworker.go:167-179 | The loop only makes existence checks through the worker's own binding and deletes aimed at other clusters. The registry and live sets only shrink. Records and resources in the worker's cluster are never removed. The guard of lines 169-170 is the predicate `Worker.Stale`: the existence check has no error, reports the resource as live, and the record's cluster differs from the worker's. |
| Worker.DeleteApplication | core/kuberes/deployworker.go:157-180 | The listing call comes first. A failed listing ends the cleanup with nothing changed. The calls after it are only existence checks and deletes aimed at other clusters. The worker's cluster is never touched. |
| Worker.UpdateAppRes | core/kuberes/deployworker.go:111-120 | The calls are exactly those of the cleanup for the found record's name, then Reconfigure of that record. The state left is the one that cleanup leaves. The result is nil exactly when reconfigure succeeds, and otherwise is the reconfigure error verbatim. The registry only loses records outside the worker's cluster. |
| Worker.CreateKubeAppRes | core/kuberes/deployworker.go:142-155 | Render comes first. A render failure returns its error with nothing else called and no change. A failed cluster create returns its error. A record is returned exactly when both succeed, and its resource is then live. No registry record is written. |
| Worker.CreateAppRes | core/kuberes/deployworker.go:122-140 | The result is nil exactly when render, cluster create and persist all succeed. Each failure returns that step's error verbatim. On success the rendered record is registered and its resource is live. The only record the create path can add is the rendered one, and no record of the worker's cluster registered before the run is removed, whether the run succeeds or fails. The nil checks of lines 134-135 are the predicate `Worker.Patches`: the extension is present and its hook is set. |
| Worker.Start | core/kuberes/deployworker.go:55-70 | The exotic query always runs first, and its failure ends the run with no change. On nil, the uniqueness check and the lookup passed, and the looked-up record stays registered (update) or the rendered record is now registered (create). |
| Properties.ForceIsInert | core/kuberes/deployworker.go:79-105 | With force and without force, the uniqueness check returns the same error, state and calls, and it never calls DeleteApp. |
| Properties.CheckFailureStopsStart | core/kuberes/deployworker.go:57-60 | If the exotic query fails or finds records, Start returns the uniqueness check's own error, a fault or a conflict, before any lookup, create, delete or registry write. The exotic query is the only call, and it mutates nothing. |
| Properties.StartUpdatesWhenFound | core/kuberes/deployworker.go:61-64 | A found record leads to the update path only: Reconfigure is the last call, and nothing is rendered, created or patched. Start returns the update path's own error and leaves its state. |
| Properties.StartCreatesWhenMissing | core/kuberes/deployworker.go:65-68 | "No rows" leads to the create path only: Render is the third call, no Reconfigure happens, and Start returns the create path's error. |
| Properties.StartReturnsLookupFault | core/kuberes/deployworker.go:65-67 | Any other lookup error is returned unchanged, after only the two queries and with no change. |
| Properties.NeverCreatesAndUpdates | core/kuberes/deployworker.go:55-70 | For every state and every set of outcomes, no run both renders and reconfigures. |
| Properties.ResourceCreateFailureWritesNothing | core/kuberes/deployworker.go:124-127 | A failed cluster create returns its error. No record is written, no compensation runs and the patch hook is not called. |
| Properties.PersistFailureCompensates | core/kuberes/deployworker.go:128-133 | A failed persist is followed by DeleteAppResource and then Appmodel.DeleteApp, as the last three calls. The persist error is returned and the patch hook is not called. The registry is exactly what the cleanup left: the rendered record is registered afterwards exactly when it was registered before. |
| Properties.CompensationOutcomeIgnored | core/kuberes/deployworker.go:130-132 | What the two compensation calls report never changes the error createAppRes returns. |
| Properties.PatchOnSuccess | core/kuberes/deployworker.go:134-139 | On full success the result is nil. The patch hook is called once with the created record if the extension and its hook are set, and never otherwise. It is never called with another record. |
| Properties.CreateSuccessTrace | core/kuberes/deployworker.go:122-155 | A fully successful create path calls render, the cleanup, cluster create, persist and then the hook, in that order. |
| Properties.UpdateIgnoresCleanup | core/kuberes/deployworker.go:111-120 | Listing, existence-check and delete outcomes in the cleanup never change the update path's error. |
| Properties.StartIgnoresCleanup | core/kuberes/deployworker.go:157-180 | Cleanup outcomes never change what Start returns. |
| Properties.CleanupVisitsAll | core/kuberes/deployworker.go:167-179 | The loop makes exactly one existence check per listed record, so a failed or skipped delete never ends the loop. |
| Properties.CleanupDeletesOnlyStale | core/kuberes/deployworker.go:169-172 | Each delete targets a listed record in that record's own cluster. It happens only after the existence check through the worker's binding succeeded with true, and only for a record whose cluster differs from the worker's. |
| Properties.CleanupRemovesOnlyDeleted | core/kuberes/deployworker.go:170-173 | A registry record disappears only if it was listed and its delete succeeded. |
| Properties.CleanupRemovesStale | core/kuberes/deployworker.go:170-173 | For a worker built by NewDeployWorker, every listed record that passes the guard and whose delete succeeds is removed from the registry and from its cluster. |
| Properties.RebindingIsLocal | core/kuberes/deployworker.go:167-172 | The loop rebinds only its copy of the handle, before every delete. So the copy's starting value never changes what is checked, deleted or left behind. |
| Properties.DeleteApplicationRunsLoop | core/kuberes/deployworker.go:157-180 | After a successful listing there is exactly one existence check per listed record, whatever each delete reports. Every delete targets a listed record that passed the guard. A registry row goes only if it was listed and its delete succeeded. For a worker built by NewDeployWorker, every guarded record whose delete succeeded is gone from the registry and its cluster. |
| Properties.ListFailureIsSilent | core/kuberes/deployworker.go:161-165 | A failed listing ends the cleanup after the listing call with nothing changed. |
| Properties.UniqueAfterSuccess | core/kuberes/deployworker.go:55-140 | After a nil Start, no other namespace of the worker's cluster holds a record with the requested name. |
| Properties.CreatedIsConsistent | core/kuberes/deployworker.go:122-155 | For a worker built by NewDeployWorker, a successful create leaves the rendered record registered and live. The run contains exactly one cluster create and one persist of it. |
| Properties.SecondStartUpdates | core/kuberes/deployworker.go:61-64 | After a nil Start whose rendered name is the requested name, a second Start on the resulting state finds the record and takes the update path. |
| Properties.StartUpdateRun | core/kuberes/deployworker.go:61-64 | When the check passes and the record is found, Start returns exactly the update path's error and state, after the exotic query and the lookup. |
| Properties.StartCreateRun | core/kuberes/deployworker.go:65-68 | On "no rows" after a passed check, Start returns exactly the create path's error and state, after the exotic query and the lookup. |
| Properties.PersistFailureKeepsPriorRecord | core/kuberes/deployworker.go:128-133 | Cluster c1 registers "x" in ns. A request for "y" whose template renders "x" fails to persist. Start returns the persist error, the compensating record delete is the last call, and "x" is still registered. |
| Registry.Insert | core/kuberes/deployworker.go:128 | A successful Appmodel.CreateApp adds the record and keeps every other row. It does not touch the live resources. |
| Registry.Uninstall | core/kuberes/deployworker.go:170-171 | A successful AppRes.DeleteApp removes exactly that record from the registry and exactly its resource from the live set. |
| Properties.ConflictScenario | core/kuberes/deployworker.go:99-105 | Cluster c1 registers "svc" in ns-a. Deploying "svc" into ns-b without force fails with a conflict naming ns-a, leaves the state unchanged and touches no cluster resource. |

## Left out

- `getDefaultPullSecretAndHarborAddr` (lines 182-204) is left out. It only does database and settings lookups, then concatenates strings.
- Logging calls are left out. They have no effect on results.
- Concurrent `Start` calls are left out. The code has no locking.
- Collaborator internals are left out: the ORM, the Kubernetes client, the template renderer, the query filter, `ReconfigureApp` and `AppRes.DeleteApp`. Whether each call fails is an oracle outcome. The effects and answers the model gives these calls are the assumptions listed below.
- `CheckAppIsExisted` (line 169) draws only its error from the oracle. Its true/false answer is taken to be whether the resource `(binding cluster, binding namespace, name)` is in the live set. `Worker.Stale`, `Properties.CleanupDeletesOnlyStale` and `Properties.CleanupRemovesStale` state the guard in those terms.
- `GenerateAppObject` (line 143) is assumed to place the record in the cluster and namespace passed to it. Only the record's name comes from the renderer. `Worker.CreateAppRes`, `Properties.CreatedIsConsistent` and `Properties.UniqueAfterSuccess` rely on this. The last holds because the only row a successful run can add is in the worker's own namespace.
- `AppRes.DeleteApp` is assumed to remove the record and its live resource when it succeeds, and to change nothing when it fails.
- `Appmodel.CreateApp` is assumed to add one row when it succeeds and none when it fails.
- `Appmodel.DeleteApp` in the compensation (line 131) gets the record whose persist just failed. That record has no row, so the model takes the delete to remove none: rows registered before the run stay, even one whose triple equals the rendered record. The call appears in the trace, and its outcome changes nothing.
- `ReconfigureApp` and the patch hook have no modelled effect on state. Their sources are not part of this model, so they appear only as calls in the trace.
- `GetExoticAppListByName` and `GetAppByName` have sources that are not part of this model. They are modelled as filters of the registry table, with the meaning their names and call sites give them, plus a failure outcome.
- The listing returned by `GetAppList` is an oracle input. How its filter treats project, cluster and namespace cannot be seen, so the model does not tie the listing to the registry.
- Error messages built with `fmt.Errorf` become structured `Conflict` and `DeleteFailed` values. Comparing against `orm.ErrNoRows` becomes the `NoRows` constructor.
- The nil-pointer panic at line 81 is excluded by the `ExtensionReadable` precondition rather than modelled as a crash.
- `AppTemplate` is opaque. The resource that `CreateAppResource` and `DeleteAppResource` act on is identified by the rendered application's name in the worker's binding.
- Of `AppParam`, only `Name` is modelled. The worker reads no other field.
- Worker.Start: its contract states the entry check and the success outcome only. Each route's result is stated by a `Properties` lemma: `CheckFailureStopsStart` for a failed check, `StartReturnsLookupFault` for a lookup fault, `StartUpdateRun` for the update route and `StartCreateRun` for the create route.

=== FILE: model.dfy ===
/** Data model of the deployment reconciliation worker: application records,
    the registry and cluster state the worker mutates, the calls it makes to
    its collaborators, and the oracle outcomes that stand in for those
    collaborators. */
module Model {

  /** An application record, identified by (cluster, namespace, name). The
      same triple identifies the live resource that a cluster holds for it. */
  datatype App = App(cluster: string, namespace: string, name: string)

  /** Errors the worker can return. `NoRows` is the registry's "no such
      record" signal; `Fault` is any other collaborator error, passed through
      verbatim; `Conflict` and `DeleteFailed` are built by the uniqueness check. */
  datatype Error =
    | NoRows
    | Fault(msg: string)
    | Conflict(app: string, namespaces: seq<string>, cluster: string)
    | DeleteFailed(app: string, namespace: string, cluster: string, cause: string)

  /** What one collaborator call reports: success, or an error message. */
  datatype Outcome = Succeeds | Fails(msg: string)

  /** What the template renderer reports: the name of the application object
      it generated, or an error. */
  datatype RenderOutcome = Rendered(name: string) | RenderFailed(msg: string)

  /** What the filtered registry listing reports. */
  datatype Listing = Listed(apps: seq<App>) | ListFailed(msg: string)

  /** The outcome every collaborator call of one `Start` will report. A call
      made once per record of a list draws its outcome from a sequence, at
      that record's position; past the sequence's end the call succeeds. */
  datatype Oracle = Oracle(
    exoticQuery: Outcome,          // Appmodel.GetExoticAppListByName
    forceDeletes: seq<Outcome>,    // AppRes.DeleteApp in the force branch
    lookup: Outcome,               // Appmodel.GetAppByName, other than "no rows"
    reconfigure: Outcome,          // AppRes.ReconfigureApp
    render: RenderOutcome,         // AppTemplate.GenerateAppObject
    listing: Listing,              // Appmodel.GetAppList
    existChecks: seq<Outcome>,     // KubeAppRes.CheckAppIsExisted, per record
    cleanupDeletes: seq<Outcome>,  // rebound AppRes.DeleteApp, per record
    resourceCreate: Outcome,       // KubeAppRes.CreateAppResource
    recordCreate: Outcome,         // Appmodel.CreateApp
    resourceDelete: Outcome,       // KubeAppRes.DeleteAppResource (compensation)
    recordDelete: Outcome          // Appmodel.DeleteApp (compensation)
  )

  /** The outcome of the `i`-th call of a per-record collaborator. */
  function At(outcomes: seq<Outcome>, i: nat): Outcome
  {
    if i < |outcomes| then outcomes[i] else Succeeds
  }

  /** The externally visible state: the application registry, as a table in
      row order, and the set of resources live in the clusters. */
  datatype State = State(registry: seq<App>, live: set<App>)

  /** One collaborator call, as it appears in a call trace. */
  datatype Call =
    | QueryExotic(cluster: string, namespace: string, name: string)
    | DeleteApp(cluster: string, namespace: string, name: string)
    | QueryByName(cluster: string, namespace: string, name: string)
    | Reconfigure(app: App)
    | Render(cluster: string, namespace: string, template: string, projectId: int)
    | QueryList(name: string, projectId: int, cluster: string, namespace: string)
    | CheckExists(cluster: string, namespace: string, name: string)
    | CreateResource(app: App)
    | CreateRecord(app: App)
    | DeleteResource(app: App)
    | DeleteRecord(app: App)
    | Patch(app: App)

  /** Calls that change the registry, a cluster, or run user hooks. */
  predicate Mutates(c: Call)
  {
    !(c.QueryExotic? || c.QueryByName? || c.Render? || c.QueryList? || c.CheckExists?)
  }

  /** How many existence checks the trace `t` holds. */
  function Checks(t: seq<Call>): nat
  {
    if t == [] then 0 else (if t[0].CheckExists? then 1 else 0) + Checks(t[1..])
  }

  lemma ChecksCons(c: Call, t: seq<Call>)
    ensures Checks([c] + t) == (if c.CheckExists? then 1 else 0) + Checks(t)
  {
    assert ([c] + t)[1..] == t;
  }

  /** How many times `c` occurs in the trace `t`. */
  function Count(t: seq<Call>, c: Call): nat
  {
    if t == [] then 0 else Count(t[..|t| - 1], c) + (if t[|t| - 1] == c then 1 else 0)
  }

  lemma {:induction false} CountAbsent(t: seq<Call>, c: Call)
    requires c !in t
    ensures Count(t, c) == 0
  {
    if t != [] {
      assert forall x :: x in t[..|t| - 1] ==> x in t;
      CountAbsent(t[..|t| - 1], c);
    }
  }

  lemma CountSnoc(t: seq<Call>, x: Call, c: Call)
    ensures Count(t + [x], c) == Count(t, c) + (if x == c then 1 else 0)
  {
    assert (t + [x])[..|t|] == t;
  }

  /** A worker step's result: the error it returns (None for nil), the state
      it leaves behind, and every collaborator call made so far. */
  datatype Run = Run(err: Option<Error>, st: State, trace: seq<Call>)

  /** The result of a step that returns nothing to its caller. */
  datatype Effect = Effect(st: State, trace: seq<Call>)

  /** The result of createKubeAppRes: the generated record (None for nil)
      next to the error, state and trace. */
  datatype KubeRun = KubeRun(app: Option<App>, err: Option<Error>, st: State, trace: seq<Call>)

  /** The result of Appmodel.GetAppByName. */
  datatype Lookup = Found(app: App) | LookupErr(err: Error)

  datatype Option<+T> = None | Some(value: T)

  /** The application-resource handle: the cluster it targets and the project
      it belongs to. `DeleteApp` and the registry queries use its cluster. */
  datatype AppRes = AppRes(cluster: string, projectId: int)

  /** Force flag and optional post-create hook; `patcher` says whether the
      hook is set. */
  datatype ExtensionParam = ExtensionParam(force: bool, patcher: bool)

  /** The (cluster, namespace, kind) binding of the cluster-resource handle. */
  datatype KubeBinding = KubeBinding(cluster: string, namespace: string, kind: string)

  /** The worker; `extension` is None when the caller passed a nil pointer. */
  datatype DeployWorker = DeployWorker(
    name: string,
    ar: AppRes,
    kube: KubeBinding,
    extension: Option<ExtensionParam>)

  /** The cluster-resource handle targets the same cluster as the
      application-resource handle. */
  predicate Bound(w: DeployWorker)
  {
    w.kube.cluster == w.ar.cluster
  }

  /** The request: only the desired application name is read by the worker. */
  datatype AppParam = AppParam(name: string)
}

=== FILE: properties.dfy ===
/** Properties of the deploy worker that relate its steps to one another or
    to separate runs: which route `Start` takes, what each failure leaves
    behind, and what the best-effort cleanup may and may not touch. */
module Properties {
  import opened Model
  import opened Registry
  import opened Worker

  /** The uniqueness check passes: the exotic query succeeds and finds nothing. */
  predicate CheckPasses(w: DeployWorker, st: State, o: Oracle, appname: string)
  {
    o.exoticQuery.Succeeds? && Exotic(st.registry, w.ar.cluster, w.kube.namespace, appname) == []
  }

  /** The trace went through the update path. */
  predicate Updated(t: seq<Call>)
  {
    exists c :: c in t && c.Reconfigure?
  }

  /** The trace went through the create path. */
  predicate Created(t: seq<Call>)
  {
    exists c :: c in t && c.Render?
  }

  // ---------------------------------------------------------------------
  // Uniqueness check

  /** The force flag makes no difference to the uniqueness check: with the
      same registry and outcomes, force and no-force give the same error,
      state and calls, and the check never calls DeleteApp. */
  lemma ForceIsInert(w: DeployWorker, st: State, o: Oracle, appname: string, e: ExtensionParam)
    ensures
      var forced := w.(extension := Some(e.(force := true)));
      var plain := w.(extension := Some(e.(force := false)));
      && CheckAppRes(forced, st, o, appname) == CheckAppRes(plain, st, o, appname)
      && forall c :: c in CheckAppRes(forced, st, o, appname).trace ==> !c.DeleteApp?
  {
  }

  /** A failed exotic query or a non-empty exotic list ends `Start` at once:
      the error is returned with nothing but the exotic query called and the
      state untouched. */
  lemma CheckFailureStopsStart(w: DeployWorker, st: State, o: Oracle, tpl: string, param: AppParam)
    requires ExtensionReadable(w, st, o, param.name)
    requires !CheckPasses(w, st, o, param.name)
    ensures var r := Start(w, st, o, tpl, param);
      && r.err.Some?
      && (r.err.value.Fault? || r.err.value.Conflict?)
      && r.st == st
      && r.err == CheckAppRes(w, st, o, param.name).err
      && r.trace == [QueryExotic(w.ar.cluster, w.kube.namespace, param.name)]
      && (forall c :: c in r.trace ==> !Mutates(c))
  {
  }

  // ---------------------------------------------------------------------
  // The three routes of Start

  /** A registered record leads to the update path only. */
  lemma StartUpdatesWhenFound(w: DeployWorker, st: State, o: Oracle, tpl: string, param: AppParam)
    requires CheckPasses(w, st, o, param.name)
    requires o.lookup.Succeeds? && Key(w, param) in st.registry
    ensures var r := Start(w, st, o, tpl, param);
      && r.trace[|r.trace| - 1] == Reconfigure(Key(w, param))
      && Updated(r.trace) && !Created(r.trace)
      && (forall c :: c in r.trace ==> !c.CreateResource? && !c.CreateRecord? && !c.Patch?)
      && (r.err.None? <==> o.reconfigure.Succeeds?)
      && r.err == UpdateAppRes(w, st, o, Key(w, param)).err
      && r.st == UpdateAppRes(w, st, o, Key(w, param)).st
  {
    var r := Start(w, st, o, tpl, param);
    var u := UpdateAppRes(w, st, o, Key(w, param));
    var q := [QueryExotic(w.ar.cluster, w.kube.namespace, param.name),
              QueryByName(w.ar.cluster, w.kube.namespace, param.name)];
    StartUpdateRun(w, st, o, tpl, param);
    var n := |u.trace|;
    assert u.trace == u.trace[..n - 1] + [u.trace[n - 1]];
    forall c | c in r.trace
      ensures !c.Render? && !c.CreateResource? && !c.CreateRecord? && !c.Patch?
    {
      if c in u.trace && c !in u.trace[..n - 1] {
        assert c == Reconfigure(Key(w, param));
      }
    }
    assert r.trace[|r.trace| - 1] == Reconfigure(Key(w, param));
    assert r.trace[|r.trace| - 1] in r.trace;
  }

  /** A missing record ("no rows") leads to the create path only. */
  lemma StartCreatesWhenMissing(w: DeployWorker, st: State, o: Oracle, tpl: string, param: AppParam)
    requires CheckPasses(w, st, o, param.name)
    requires o.lookup.Succeeds? && Key(w, param) !in st.registry
    ensures var r := Start(w, st, o, tpl, param);
      && r.trace[2] == Render(w.ar.cluster, w.kube.namespace, tpl, w.ar.projectId)
      && Created(r.trace) && !Updated(r.trace)
      && r.err == CreateAppRes(w, st, o, tpl, param).err
  {
    var c := CreateAppRes(w, st, o, tpl, param);
    var k := CreateKubeAppRes(w, st, o, tpl, param);
    assert forall x :: x in c.trace ==> x in k.trace || x.CreateRecord? || x.DeleteResource? || x.DeleteRecord? || x.Patch?;
  }

  /** Any other lookup error is returned unchanged, with no mutation. */
  lemma StartReturnsLookupFault(w: DeployWorker, st: State, o: Oracle, tpl: string, param: AppParam)
    requires CheckPasses(w, st, o, param.name)
    requires o.lookup.Fails?
    ensures var r := Start(w, st, o, tpl, param);
      && r.err == Some(Fault(o.lookup.msg))
      && r.st == st
      && r.trace == [QueryExotic(w.ar.cluster, w.kube.namespace, param.name),
                     QueryByName(w.ar.cluster, w.kube.namespace, param.name)]
  {
  }

  /** Create and update never both run, whatever the state and outcomes. */
  lemma NeverCreatesAndUpdates(w: DeployWorker, st: State, o: Oracle, tpl: string, param: AppParam)
    requires ExtensionReadable(w, st, o, param.name)
    ensures var r := Start(w, st, o, tpl, param);
      !(Created(r.trace) && Updated(r.trace))
  {
    if !CheckPasses(w, st, o, param.name) {
      CheckFailureStopsStart(w, st, o, tpl, param);
    } else if o.lookup.Fails? {
      StartReturnsLookupFault(w, st, o, tpl, param);
    } else if Key(w, param) in st.registry {
      StartUpdatesWhenFound(w, st, o, tpl, param);
    } else {
      StartCreatesWhenMissing(w, st, o, tpl, param);
    }
  }

  // ---------------------------------------------------------------------
  // Create path

  /** A failed cluster create writes no registry record and never patches. */
  lemma ResourceCreateFailureWritesNothing(w: DeployWorker, st: State, o: Oracle, tpl: string, param: AppParam)
    requires o.render.Rendered? && o.resourceCreate.Fails?
    ensures var r := CreateAppRes(w, st, o, tpl, param);
      && r.err == Some(Fault(o.resourceCreate.msg))
      && (forall c :: c in r.trace ==> !c.CreateRecord? && !c.Patch? && !c.DeleteResource? && !c.DeleteRecord?)
      && (forall x :: x in r.st.registry ==> x in st.registry)
  {
  }

  /** A failed persist after a successful cluster create deletes the
      resource and then the record, returns the persist error whatever the
      compensation reports, and never patches. The registry is left as the
      cleanup left it: the rendered record is registered afterwards exactly
      when it was registered before. */
  lemma PersistFailureCompensates(w: DeployWorker, st: State, o: Oracle, tpl: string, param: AppParam)
    requires o.render.Rendered? && o.resourceCreate.Succeeds? && o.recordCreate.Fails?
    ensures var r := CreateAppRes(w, st, o, tpl, param);
      var app := Generated(w, o);
      && r.err == Some(Fault(o.recordCreate.msg))
      && 3 <= |r.trace|
      && r.trace[|r.trace| - 3..] == [CreateRecord(app), DeleteResource(Resource(w, app)), DeleteRecord(app)]
      && (forall c :: c in r.trace ==> !c.Patch?)
      && (forall x :: x in r.st.registry ==> x in st.registry)
      && r.st.registry == DeleteApplication(w, st, o, param.name).st.registry
      && (app in r.st.registry <==> app in st.registry)
      && (o.resourceDelete.Succeeds? ==> Resource(w, app) !in r.st.live)
  {
    var k := CreateKubeAppRes(w, st, o, tpl, param);
    var app := Generated(w, o);
    assert forall x :: x in k.trace ==> !x.Patch?;
  }

  /** The persist error is returned whatever the compensation steps report. */
  lemma CompensationOutcomeIgnored(w: DeployWorker, st: State, o: Oracle, tpl: string, param: AppParam,
                                   resourceDelete: Outcome, recordDelete: Outcome)
    ensures
      var o' := o.(resourceDelete := resourceDelete, recordDelete := recordDelete);
      CreateAppRes(w, st, o', tpl, param).err == CreateAppRes(w, st, o, tpl, param).err
  {
  }

  /** On full success the patch hook runs exactly once, with the created
      record, when and only when the extension and its hook are set. */
  lemma PatchOnSuccess(w: DeployWorker, st: State, o: Oracle, tpl: string, param: AppParam)
    requires o.render.Rendered? && o.resourceCreate.Succeeds? && o.recordCreate.Succeeds?
    ensures var r := CreateAppRes(w, st, o, tpl, param);
      var app := Generated(w, o);
      && r.err.None?
      && Count(r.trace, Patch(app)) == (if Patches(w) then 1 else 0)
      && (forall c :: c in r.trace && c.Patch? ==> c == Patch(app))
  {
    var app := Generated(w, o);
    var cl := DeleteApplication(w, st, o, param.name);
    CreateSuccessTrace(w, st, o, tpl, param);
    var pre := [Render(w.ar.cluster, w.kube.namespace, tpl, w.ar.projectId)] + cl.trace;
    assert cl.trace == [cl.trace[0]] + cl.trace[1..];
    var tail := if Patches(w) then [Patch(app)] else [];
    CreatesOnce(pre, app, Resource(w, app), tail);
  }

  // ---------------------------------------------------------------------
  // Update path

  /** Cleanup outcomes never reach the caller of the update path. */
  lemma UpdateIgnoresCleanup(w: DeployWorker, st: State, o: Oracle, app: App,
                             listing: Listing, existChecks: seq<Outcome>, cleanupDeletes: seq<Outcome>)
    ensures
      var o' := o.(listing := listing, existChecks := existChecks, cleanupDeletes := cleanupDeletes);
      UpdateAppRes(w, st, o', app).err == UpdateAppRes(w, st, o, app).err
  {
  }

  /** Cleanup outcomes never change what `Start` returns. */
  lemma StartIgnoresCleanup(w: DeployWorker, st: State, o: Oracle, tpl: string, param: AppParam,
                            listing: Listing, existChecks: seq<Outcome>, cleanupDeletes: seq<Outcome>)
    requires ExtensionReadable(w, st, o, param.name)
    ensures
      var o' := o.(listing := listing, existChecks := existChecks, cleanupDeletes := cleanupDeletes);
      Start(w, st, o', tpl, param).err == Start(w, st, o, tpl, param).err
  {
  }

  // ---------------------------------------------------------------------
  // Cleanup (deleteApplication)

  /** Every listed record gets its existence check: the loop makes exactly
      one check per record from position `i` on, so a failed or skipped
      delete does not end it. */
  lemma {:induction false} CleanupVisitsAll(w: DeployWorker, ar: AppRes, st: State, o: Oracle, apps: seq<App>, i: nat)
    requires i <= |apps|
    decreases |apps| - i
    ensures Checks(CleanupFrom(w, ar, st, o, apps, i).trace) == |apps| - i
    ensures forall k :: i <= k < |apps| ==>
      CheckExists(w.kube.cluster, w.kube.namespace, apps[k].name) in CleanupFrom(w, ar, st, o, apps, i).trace
  {
    if i < |apps| {
      var app := apps[i];
      var check := CheckExists(w.kube.cluster, w.kube.namespace, app.name);
      if Stale(w, st, o, app, i) {
        var ar' := ar.(cluster := app.cluster);
        var st' := if At(o.cleanupDeletes, i).Succeeds? then Uninstall(st, App(ar'.cluster, app.namespace, app.name)) else st;
        CleanupVisitsAll(w, ar', st', o, apps, i + 1);
        var rest := CleanupFrom(w, ar', st', o, apps, i + 1).trace;
        var del := DeleteApp(ar'.cluster, app.namespace, app.name);
        ChecksCons(del, rest);
        ChecksCons(check, [del] + rest);
        assert [check, del] + rest == [check] + ([del] + rest);
      } else {
        CleanupVisitsAll(w, ar, st, o, apps, i + 1);
        var rest := CleanupFrom(w, ar, st, o, apps, i + 1).trace;
        ChecksCons(check, rest);
      }
    }
  }

  /** Each delete the loop issues targets a listed record, through a handle
      rebound to that record's cluster, and only after the existence check
      through the worker's binding succeeded and answered true. */
  lemma {:induction false} CleanupDeletesOnlyStale(w: DeployWorker, ar: AppRes, st: State, o: Oracle, apps: seq<App>, i: nat)
    requires i <= |apps|
    decreases |apps| - i
    ensures forall c :: c in CleanupFrom(w, ar, st, o, apps, i).trace && c.DeleteApp? ==>
      exists k :: && i <= k < |apps|
                  && c == DeleteApp(apps[k].cluster, apps[k].namespace, apps[k].name)
                  && At(o.existChecks, k).Succeeds?
                  && App(w.kube.cluster, w.kube.namespace, apps[k].name) in st.live
                  && apps[k].cluster != w.ar.cluster
  {
    if i < |apps| {
      var app := apps[i];
      if Stale(w, st, o, app, i) {
        var ar' := ar.(cluster := app.cluster);
        var st' := if At(o.cleanupDeletes, i).Succeeds? then Uninstall(st, App(ar'.cluster, app.namespace, app.name)) else st;
        CleanupDeletesOnlyStale(w, ar', st', o, apps, i + 1);
      } else {
        CleanupDeletesOnlyStale(w, ar, st, o, apps, i + 1);
      }
    }
  }

  /** A registry record disappears only if it was listed and its delete
      succeeded. */
  lemma {:induction false} CleanupRemovesOnlyDeleted(w: DeployWorker, ar: AppRes, st: State, o: Oracle, apps: seq<App>, i: nat)
    requires i <= |apps|
    decreases |apps| - i
    ensures var r := CleanupFrom(w, ar, st, o, apps, i);
      forall x :: x in st.registry && x !in r.st.registry ==>
        exists k :: i <= k < |apps| && apps[k] == x && At(o.cleanupDeletes, k).Succeeds?
  {
    if i < |apps| {
      var app := apps[i];
      if Stale(w, st, o, app, i) {
        var ar' := ar.(cluster := app.cluster);
        var st' := if At(o.cleanupDeletes, i).Succeeds? then Uninstall(st, App(ar'.cluster, app.namespace, app.name)) else st;
        CleanupRemovesOnlyDeleted(w, ar', st', o, apps, i + 1);
      } else {
        CleanupRemovesOnlyDeleted(w, ar, st, o, apps, i + 1);
      }
    }
  }

  /** For a worker built by NewDeployWorker, every listed record that passes
      the guard and whose delete succeeds is gone from the registry and from
      its cluster afterwards. */
  lemma {:induction false} CleanupRemovesStale(w: DeployWorker, ar: AppRes, st: State, o: Oracle, apps: seq<App>, i: nat)
    requires Bound(w)
    requires i <= |apps|
    decreases |apps| - i
    ensures var r := CleanupFrom(w, ar, st, o, apps, i);
      forall k :: i <= k < |apps| && Stale(w, st, o, apps[k], k) && At(o.cleanupDeletes, k).Succeeds? ==>
        apps[k] !in r.st.registry && apps[k] !in r.st.live
  {
    if i < |apps| {
      var app := apps[i];
      var ar' := ar.(cluster := app.cluster);
      var st' := if Stale(w, st, o, app, i) && At(o.cleanupDeletes, i).Succeeds?
                 then Uninstall(st, App(ar'.cluster, app.namespace, app.name)) else st;
      var ar'' := if Stale(w, st, o, app, i) then ar' else ar;
      CleanupRemovesStale(w, ar'', st', o, apps, i + 1);
      forall k | i < k < |apps| && Stale(w, st, o, apps[k], k)
        ensures Stale(w, st', o, apps[k], k)
      {
        assert App(w.kube.cluster, w.kube.namespace, apps[k].name) in st'.live;
      }
    }
  }

  /** The loop rebinds only its own copy of the handle, and rebinds it before
      every delete, so the copy it starts from never matters: what the loop
      checks, deletes and leaves behind depends on the worker alone. */
  lemma {:induction false} RebindingIsLocal(w: DeployWorker, ar1: AppRes, ar2: AppRes, st: State, o: Oracle,
                                            apps: seq<App>, i: nat)
    requires i <= |apps|
    decreases |apps| - i
    ensures CleanupFrom(w, ar1, st, o, apps, i) == CleanupFrom(w, ar2, st, o, apps, i)
  {
    if i < |apps| {
      var app := apps[i];
      if Stale(w, st, o, app, i) {
        var st' := if At(o.cleanupDeletes, i).Succeeds? then Uninstall(st, app) else st;
        RebindingIsLocal(w, ar1.(cluster := app.cluster), ar2.(cluster := app.cluster), st', o, apps, i + 1);
      } else {
        RebindingIsLocal(w, ar1, ar2, st, o, apps, i + 1);
      }
    }
  }

  /** A successful listing runs the loop over every listed record: one
      existence check per record, whatever each delete reports; every delete
      targets a listed record that passed the guard; a registry row goes only
      if it was listed and its delete succeeded; and, for a worker built by
      NewDeployWorker, every guarded record whose delete succeeded is gone. */
  lemma DeleteApplicationRunsLoop(w: DeployWorker, st: State, o: Oracle, appname: string)
    requires o.listing.Listed?
    ensures var r := DeleteApplication(w, st, o, appname);
      var apps := o.listing.apps;
      && Checks(r.trace) == |apps|
      && (forall c :: c in r.trace && c.DeleteApp? ==>
            exists k :: && 0 <= k < |apps|
                        && c == DeleteApp(apps[k].cluster, apps[k].namespace, apps[k].name)
                        && Stale(w, st, o, apps[k], k))
      && (forall x :: x in st.registry && x !in r.st.registry ==>
            exists k :: 0 <= k < |apps| && apps[k] == x && At(o.cleanupDeletes, k).Succeeds?)
      && (Bound(w) ==>
            forall k :: 0 <= k < |apps| && Stale(w, st, o, apps[k], k) && At(o.cleanupDeletes, k).Succeeds? ==>
              apps[k] !in r.st.registry && apps[k] !in r.st.live)
  {
    var apps := o.listing.apps;
    var q := QueryList(appname, w.ar.projectId, w.kube.cluster, w.kube.namespace);
    var c := CleanupFrom(w, w.ar, st, o, apps, 0);
    assert DeleteApplication(w, st, o, appname) == Effect(c.st, [q] + c.trace);
    CleanupVisitsAll(w, w.ar, st, o, apps, 0);
    ChecksCons(q, c.trace);
    CleanupDeletesOnlyStale(w, w.ar, st, o, apps, 0);
    CleanupRemovesOnlyDeleted(w, w.ar, st, o, apps, 0);
    if Bound(w) {
      CleanupRemovesStale(w, w.ar, st, o, apps, 0);
    }
  }

  /** A failed listing ends the cleanup with nothing deleted. */
  lemma ListFailureIsSilent(w: DeployWorker, st: State, o: Oracle, appname: string)
    requires o.listing.ListFailed?
    ensures var r := DeleteApplication(w, st, o, appname);
      r.st == st && r.trace == [QueryList(appname, w.ar.projectId, w.kube.cluster, w.kube.namespace)]
  {
  }

  // ---------------------------------------------------------------------
  // Whole runs

  /** After a successful `Start` no other namespace of the worker's cluster
      holds a record with the requested name. */
  lemma UniqueAfterSuccess(w: DeployWorker, st: State, o: Oracle, tpl: string, param: AppParam)
    requires ExtensionReadable(w, st, o, param.name)
    ensures var r := Start(w, st, o, tpl, param);
      r.err.None? ==> Exotic(r.st.registry, w.ar.cluster, w.kube.namespace, param.name) == []
  {
    var r := Start(w, st, o, tpl, param);
    if r.err.None? {
      forall a | a in r.st.registry
        ensures !(a.cluster == w.ar.cluster && a.namespace != w.kube.namespace && a.name == param.name)
      {
        ExoticEmpty(st.registry, w.ar.cluster, w.kube.namespace, param.name);
      }
      ExoticNone(r.st.registry, w.ar.cluster, w.kube.namespace, param.name);
    }
  }

  /** The calls of a fully successful create path, in order. */
  lemma CreateSuccessTrace(w: DeployWorker, st: State, o: Oracle, tpl: string, param: AppParam)
    requires o.render.Rendered? && o.resourceCreate.Succeeds? && o.recordCreate.Succeeds?
    ensures var app := Generated(w, o);
      CreateAppRes(w, st, o, tpl, param).trace ==
        [Render(w.ar.cluster, w.kube.namespace, tpl, w.ar.projectId)]
        + DeleteApplication(w, st, o, param.name).trace
        + [CreateResource(Resource(w, app)), CreateRecord(app)]
        + (if Patches(w) then [Patch(app)] else [])
  {
  }

  /** For a worker built by NewDeployWorker, a successful create leaves the
      rendered record both registered and live, created once each. */
  lemma CreatedIsConsistent(w: DeployWorker, st: State, o: Oracle, tpl: string, param: AppParam)
    requires Bound(w)
    requires CheckPasses(w, st, o, param.name)
    requires o.lookup.Succeeds? && Key(w, param) !in st.registry
    requires o.render.Rendered? && o.resourceCreate.Succeeds? && o.recordCreate.Succeeds?
    ensures var r := Start(w, st, o, tpl, param);
      var app := Generated(w, o);
      && r.err.None?
      && app in r.st.registry && app in r.st.live
      && Count(r.trace, CreateRecord(app)) == 1
      && Count(r.trace, CreateResource(app)) == 1
  {
    var app := Generated(w, o);
    assert Resource(w, app) == app;
    var cl := DeleteApplication(w, st, o, param.name);
    var c := CreateAppRes(w, st, o, tpl, param);
    CreateSuccessTrace(w, st, o, tpl, param);
    var q := [QueryExotic(w.ar.cluster, w.kube.namespace, param.name),
              QueryByName(w.ar.cluster, w.kube.namespace, param.name)];
    var r := Start(w, st, o, tpl, param);
    StartCreateRun(w, st, o, tpl, param);
    var pre := q + [Render(w.ar.cluster, w.kube.namespace, tpl, w.ar.projectId)] + cl.trace;
    var tail := if Patches(w) then [Patch(app)] else [];
    assert r.trace == pre + [CreateResource(app), CreateRecord(app)] + tail;
    assert cl.trace == [cl.trace[0]] + cl.trace[1..];
    CreatesOnce(pre, app, app, tail);
  }

  /** On the update route, `Start` returns what the update path returns,
      after the exotic query and the lookup. */
  lemma StartUpdateRun(w: DeployWorker, st: State, o: Oracle, tpl: string, param: AppParam)
    requires CheckPasses(w, st, o, param.name)
    requires o.lookup.Succeeds? && Key(w, param) in st.registry
    ensures var u := UpdateAppRes(w, st, o, Key(w, param));
      Start(w, st, o, tpl, param) ==
        Run(u.err, u.st, [QueryExotic(w.ar.cluster, w.kube.namespace, param.name),
                          QueryByName(w.ar.cluster, w.kube.namespace, param.name)] + u.trace)
  {
    assert CheckAppRes(w, st, o, param.name).err.None?;
    assert GetAppByName(st, o, Key(w, param)) == Found(Key(w, param));
  }

  /** On the create route, `Start` returns what the create path returns,
      after the exotic query and the lookup. */
  lemma StartCreateRun(w: DeployWorker, st: State, o: Oracle, tpl: string, param: AppParam)
    requires CheckPasses(w, st, o, param.name)
    requires o.lookup.Succeeds? && Key(w, param) !in st.registry
    ensures var c := CreateAppRes(w, st, o, tpl, param);
      Start(w, st, o, tpl, param) ==
        Run(c.err, c.st, [QueryExotic(w.ar.cluster, w.kube.namespace, param.name),
                          QueryByName(w.ar.cluster, w.kube.namespace, param.name)] + c.trace)
  {
    assert CheckAppRes(w, st, o, param.name).err.None?;
    assert GetAppByName(st, o, Key(w, param)) == LookupErr(NoRows);
  }

  /** A trace that creates `app`'s resource and record once, after calls that
      create neither and before at most a patch, counts one of each. */
  lemma CreatesOnce(pre: seq<Call>, app: App, res: App, tail: seq<Call>)
    requires CreateRecord(app) !in pre && CreateResource(res) !in pre && Patch(app) !in pre
    requires tail == [] || tail == [Patch(app)]
    ensures var t := pre + [CreateResource(res), CreateRecord(app)] + tail;
      && Count(t, CreateRecord(app)) == 1
      && Count(t, CreateResource(res)) == 1
      && Count(t, Patch(app)) == |tail|
  {
    CountAbsent(pre, CreateRecord(app));
    CountAbsent(pre, CreateResource(res));
    CountAbsent(pre, Patch(app));
    var t1 := pre + [CreateResource(res)];
    var t2 := t1 + [CreateRecord(app)];
    assert pre + [CreateResource(res), CreateRecord(app)] == t2;
    CountSnoc(pre, CreateResource(res), CreateRecord(app));
    CountSnoc(pre, CreateResource(res), CreateResource(res));
    CountSnoc(pre, CreateResource(res), Patch(app));
    CountSnoc(t1, CreateRecord(app), CreateRecord(app));
    CountSnoc(t1, CreateRecord(app), CreateResource(res));
    CountSnoc(t1, CreateRecord(app), Patch(app));
    if tail != [] {
      CountSnoc(t2, Patch(app), CreateRecord(app));
      CountSnoc(t2, Patch(app), CreateResource(res));
      CountSnoc(t2, Patch(app), Patch(app));
    } else {
      assert t2 + tail == t2;
    }
  }

  /** Calling `Start` again after a successful run, with the state it left,
      takes the update path: the record is found and reconfigured, and
      nothing is rendered or created. */
  lemma SecondStartUpdates(w: DeployWorker, st: State, o1: Oracle, o2: Oracle, tpl: string, param: AppParam)
    requires ExtensionReadable(w, st, o1, param.name)
    requires o1.render.Rendered? ==> o1.render.name == param.name
    requires Start(w, st, o1, tpl, param).err.None?
    requires o2.exoticQuery.Succeeds? && o2.lookup.Succeeds?
    ensures var st' := Start(w, st, o1, tpl, param).st;
      && ExtensionReadable(w, st', o2, param.name)
      && var r := Start(w, st', o2, tpl, param);
         && r.trace[|r.trace| - 1] == Reconfigure(Key(w, param))
         && Updated(r.trace) && !Created(r.trace)
  {
    var st' := Start(w, st, o1, tpl, param).st;
    UniqueAfterSuccess(w, st, o1, tpl, param);
    assert Key(w, param) in st'.registry;
    StartUpdatesWhenFound(w, st', o2, tpl, param);
  }

  /** A failed persist never costs a record registered before the run: cluster
      c1 registers "x" in namespace ns; a request for "y" whose template
      renders "x" fails to persist, and "x" is still registered afterwards. */
  lemma PersistFailureKeepsPriorRecord(o: Oracle)
    requires o.exoticQuery.Succeeds? && o.lookup.Succeeds?
    requires o.render == Rendered("x") && o.resourceCreate.Succeeds? && o.recordCreate == Fails("dup")
    ensures
      var w := NewDeployWorker("y", "ns", "Deployment", AppRes("c1", 1), None);
      var st := State([App("c1", "ns", "x")], {});
      var r := Start(w, st, o, "tpl1", AppParam("y"));
      && r.err == Some(Fault("dup"))
      && App("c1", "ns", "x") in r.st.registry
      && r.trace[|r.trace| - 1] == DeleteRecord(App("c1", "ns", "x"))
  {
    var w := NewDeployWorker("y", "ns", "Deployment", AppRes("c1", 1), None);
    var st := State([App("c1", "ns", "x")], {});
    assert Exotic(st.registry, "c1", "ns", "y") == [];
    PersistFailureCompensates(w, st, o, "tpl1", AppParam("y"));
    StartCreateRun(w, st, o, "tpl1", AppParam("y"));
  }

  /** The scenario of a conflicting deployment: cluster c1 registers "svc" in
      namespace ns-a; deploying "svc" into ns-b without force fails with a
      conflict naming ns-a and touches no cluster resource. */
  lemma ConflictScenario(o: Oracle)
    requires o.exoticQuery.Succeeds?
    ensures
      var w := NewDeployWorker("svc", "ns-b", "Deployment", AppRes("c1", 1), Some(ExtensionParam(false, false)));
      var st := State([App("c1", "ns-a", "svc")], {App("c1", "ns-a", "svc")});
      var r := Start(w, st, o, "tpl1", AppParam("svc"));
      && r.err == Some(Conflict("svc", ["ns-a"], "c1"))
      && r.st == st
      && forall c :: c in r.trace ==> !c.CreateResource? && !c.DeleteResource? && !c.DeleteApp?
  {
    var w := NewDeployWorker("svc", "ns-b", "Deployment", AppRes("c1", 1), Some(ExtensionParam(false, false)));
    var st := State([App("c1", "ns-a", "svc")], {App("c1", "ns-a", "svc")});
    var exotic := Exotic(st.registry, "c1", "ns-b", "svc");
    assert exotic == [App("c1", "ns-a", "svc")];
    assert Namespaces(exotic) == ["ns-a"];
  }
}

=== FILE: registry.dfy ===
/** The registry queries and mutations the worker relies on, over the
    registry table of `Model.State`. */
module Registry {
  import opened Model

  /** Records with this name, in this cluster, in a namespace other than
      `namespace`, in table order (Appmodel.GetExoticAppListByName). */
  function Exotic(registry: seq<App>, cluster: string, namespace: string, name: string): (r: seq<App>)
    ensures |r| <= |registry|
    ensures forall a :: a in r <==>
      a in registry && a.cluster == cluster && a.namespace != namespace && a.name == name
  {
    if registry == [] then []
    else
      var rest := Exotic(registry[1..], cluster, namespace, name);
      var a := registry[0];
      if a.cluster == cluster && a.namespace != namespace && a.name == name then [a] + rest else rest
  }

  /** A table with no record of this name in another namespace of this
      cluster has no exotic records. */
  lemma {:induction false} ExoticNone(registry: seq<App>, cluster: string, namespace: string, name: string)
    requires forall a :: a in registry ==> !(a.cluster == cluster && a.namespace != namespace && a.name == name)
    ensures Exotic(registry, cluster, namespace, name) == []
  {
    if registry != [] {
      assert forall a :: a in registry[1..] ==> a in registry;
      ExoticNone(registry[1..], cluster, namespace, name);
    }
  }

  /** An empty exotic list means no record of this name sits in another
      namespace of this cluster. */
  lemma ExoticEmpty(registry: seq<App>, cluster: string, namespace: string, name: string)
    requires Exotic(registry, cluster, namespace, name) == []
    ensures forall a :: a in registry ==> !(a.cluster == cluster && a.namespace != namespace && a.name == name)
  {
  }

  /** The namespaces of `apps`, one per record, in order. */
  function Namespaces(apps: seq<App>): (r: seq<string>)
    ensures |r| == |apps|
    ensures forall i :: 0 <= i < |apps| ==> r[i] == apps[i].namespace
  {
    if apps == [] then [] else [apps[0].namespace] + Namespaces(apps[1..])
  }

  /** The table without any row for `a`. */
  function Remove(registry: seq<App>, a: App): (r: seq<App>)
    ensures |r| <= |registry|
    ensures forall x :: x in r <==> x in registry && x != a
  {
    if registry == [] then []
    else
      var rest := Remove(registry[1..], a);
      if registry[0] == a then rest else [registry[0]] + rest
  }

  /** AppRes.DeleteApp succeeding on `a`: the record and its live resource go. */
  function Uninstall(st: State, a: App): (r: State)
    ensures a !in r.registry && a !in r.live
    ensures forall x :: x in r.registry <==> x in st.registry && x != a
    ensures r.live == st.live - {a}
  {
    State(Remove(st.registry, a), st.live - {a})
  }

  /** Appmodel.CreateApp succeeding on `a`: a row is appended. */
  function Insert(st: State, a: App): (r: State)
    ensures forall x :: x in r.registry <==> x in st.registry || x == a
    ensures r.live == st.live
  {
    State(st.registry + [a], st.live)
  }
}

=== FILE: worker.dfy ===
/** The deploy worker: `Start` and the steps it is built from, each a pure
    function from (worker, state, oracle outcomes) to its
    result, the state it leaves and the collaborator calls it made, in order. */
module Worker {
  import opened Model
  import opened Registry

  /** Builds a worker whose cluster-resource handle is bound to the
      application-resource handle's cluster and to the given namespace and
      kind. */
  function NewDeployWorker(name: string, namespace: string, kind: string, ar: AppRes,
                           eparam: Option<ExtensionParam>): (w: DeployWorker)
    ensures Bound(w)
    ensures w.kube.namespace == namespace && w.kube.kind == kind
    ensures w.ar == ar && w.extension == eparam && w.name == name
  {
    DeployWorker(name, ar, KubeBinding(ar.cluster, namespace, kind), eparam)
  }

  /** The uniqueness check reads the force flag without a nil check, so the
      extension must be present whenever the exotic query returns records. */
  predicate ExtensionReadable(w: DeployWorker, st: State, o: Oracle, appname: string)
  {
    || o.exoticQuery.Fails?
    || Exotic(st.registry, w.ar.cluster, w.kube.namespace, appname) == []
    || w.extension.Some?
  }

  /** The uninstall loop of the force branch: deletes each record through the
      worker's own handle and stops at the first failure. `r.trace` holds the
      calls the loop makes. */
  function ForceUninstall(ar: AppRes, st: State, outcomes: seq<Outcome>, apps: seq<App>,
                          appname: string): (r: Run)
    decreases |apps|
    ensures |r.trace| <= |apps|
    ensures forall c :: c in r.trace ==> c.DeleteApp? && c.cluster == ar.cluster
    ensures forall j :: 0 <= j < |r.trace| ==> r.trace[j] == DeleteApp(ar.cluster, apps[j].namespace, apps[j].name)
    ensures forall j :: 0 <= j < |r.trace| - 1 ==> At(outcomes, j).Succeeds?
    ensures forall x :: x in r.st.registry ==> x in st.registry
    ensures r.err.None? ==>
      && |r.trace| == |apps|
      && (forall j :: 0 <= j < |apps| ==> At(outcomes, j).Succeeds?)
      && forall a :: a in apps ==> App(ar.cluster, a.namespace, a.name) !in r.st.registry
    ensures r.err.Some? ==>
      && 1 <= |r.trace|
      && At(outcomes, |r.trace| - 1).Fails?
      && r.err == Some(DeleteFailed(appname, apps[|r.trace| - 1].namespace, ar.cluster,
                                    At(outcomes, |r.trace| - 1).msg))
  {
    if apps == [] then Run(None, st, [])
    else
      var app := apps[0];
      var call := DeleteApp(ar.cluster, app.namespace, app.name);
      match At(outcomes, 0)
      case Fails(m) => Run(Some(DeleteFailed(appname, app.namespace, ar.cluster, m)), st, [call])
      case Succeeds =>
        var rest := if |outcomes| > 0 then outcomes[1..] else [];
        assert forall j :: 0 <= j ==> At(rest, j) == At(outcomes, j + 1);
        var r := ForceUninstall(ar, Uninstall(st, App(ar.cluster, app.namespace, app.name)), rest, apps[1..], appname);
        assert forall j :: 1 <= j <= |r.trace| ==> At(outcomes, j) == At(rest, j - 1);
        Run(r.err, r.st, [call] + r.trace)
  }

  /** checkAppRes: the application name must not be registered in another
      namespace of the worker's cluster. The force branch gates its uninstall
      loop on the namespace list being empty right after filling it from a
      non-empty list, so the loop never runs and force changes nothing. */
  function CheckAppRes(w: DeployWorker, st: State, o: Oracle, appname: string): (r: Run)
    requires ExtensionReadable(w, st, o, appname)
    ensures r.st == st
    ensures r.trace == [QueryExotic(w.ar.cluster, w.kube.namespace, appname)]
    ensures o.exoticQuery.Fails? ==> r.err == Some(Fault(o.exoticQuery.msg))
    ensures o.exoticQuery.Succeeds? ==>
      var exotic := Exotic(st.registry, w.ar.cluster, w.kube.namespace, appname);
      && (r.err.None? <==> exotic == [])
      && (exotic != [] ==>
            && r.err.Some? && r.err.value.Conflict?
            && r.err.value.app == appname && r.err.value.cluster == w.ar.cluster
            && |r.err.value.namespaces| == |exotic|
            && forall i :: 0 <= i < |exotic| ==> r.err.value.namespaces[i] == exotic[i].namespace)
  {
    var q := [QueryExotic(w.ar.cluster, w.kube.namespace, appname)];
    match o.exoticQuery
    case Fails(m) => Run(Some(Fault(m)), st, q)
    case Succeeds =>
      var exotic := Exotic(st.registry, w.ar.cluster, w.kube.namespace, appname);
      if |exotic| == 0 then Run(None, st, q)
      else
        var exoticns := Namespaces(exotic);
        var forced :=
          if w.extension.value.force && |exoticns| == 0
          then ForceUninstall(w.ar, st, o.forceDeletes, exotic, appname)
          else Run(None, st, []);
        if forced.err.Some? then Run(forced.err, forced.st, q + forced.trace)
        else if |exoticns| != 0 then Run(Some(Conflict(appname, exoticns, w.ar.cluster)), forced.st, q + forced.trace)
        else Run(None, forced.st, q + forced.trace)
  }

  /** Appmodel.GetAppByName for (cluster, namespace, name): the record, "no
      rows" when the registry has none, or the backend's error. */
  function GetAppByName(st: State, o: Oracle, key: App): (r: Lookup)
    ensures o.lookup.Fails? ==> r == LookupErr(Fault(o.lookup.msg))
    ensures o.lookup.Succeeds? ==> (r.Found? <==> key in st.registry)
    ensures r.Found? ==> r.app == key
    ensures r.LookupErr? && r.err == NoRows ==> o.lookup.Succeeds? && key !in st.registry
  {
    match o.lookup
    case Fails(m) => LookupErr(Fault(m))
    case Succeeds => if key in st.registry then Found(key) else LookupErr(NoRows)
  }

  /** Whether the `i`-th listed record passes the cleanup guard in state
      `st`: the existence check through the worker's binding succeeds and
      answers true, and the record's cluster is not the worker's. */
  predicate Stale(w: DeployWorker, st: State, o: Oracle, app: App, i: nat)
  {
    && At(o.existChecks, i).Succeeds?
    && App(w.kube.cluster, w.kube.namespace, app.name) in st.live
    && w.ar.cluster != app.cluster
  }

  /** The loop of deleteApplication from the `i`-th listed record on. `ar`
      is the loop's own copy of the worker's handle, taken by value before
      the loop; it is rebound to each deleted record's cluster and read only
      after that rebinding. Carrying it as a parameter, separate from
      `w.ar`, is how the model shows that rebinding the copy never rebinds
      the worker's handle. Existence is always checked through the worker's
      own cluster-resource binding. `r.trace` holds the calls the loop
      makes. */
  function CleanupFrom(w: DeployWorker, ar: AppRes, st: State, o: Oracle, apps: seq<App>, i: nat): (r: Effect)
    requires i <= |apps|
    decreases |apps| - i
    ensures forall c :: c in r.trace ==>
      || (c.CheckExists? && c.cluster == w.kube.cluster && c.namespace == w.kube.namespace)
      || (c.DeleteApp? && c.cluster != w.ar.cluster)
    ensures forall x :: x in r.st.registry ==> x in st.registry
    ensures forall x :: x in r.st.live ==> x in st.live
    ensures forall x :: x in st.registry && x.cluster == w.ar.cluster ==> x in r.st.registry
    ensures forall x :: x in st.live && x.cluster == w.ar.cluster ==> x in r.st.live
  {
    if i == |apps| then Effect(st, [])
    else
      var app := apps[i];
      var check := CheckExists(w.kube.cluster, w.kube.namespace, app.name);
      if Stale(w, st, o, app, i) then
        var ar' := ar.(cluster := app.cluster);
        var victim := App(ar'.cluster, app.namespace, app.name);
        var st' := if At(o.cleanupDeletes, i).Succeeds? then Uninstall(st, victim) else st;
        var r := CleanupFrom(w, ar', st', o, apps, i + 1);
        Effect(r.st, [check, DeleteApp(ar'.cluster, app.namespace, app.name)] + r.trace)
      else
        var r := CleanupFrom(w, ar, st, o, apps, i + 1);
        Effect(r.st, [check] + r.trace)
  }

  /** deleteApplication: best-effort removal of same-name records registered
      under other clusters. It returns nothing; a listing error ends it. */
  function DeleteApplication(w: DeployWorker, st: State, o: Oracle, appname: string): (r: Effect)
    ensures 1 <= |r.trace| && r.trace[0] == QueryList(appname, w.ar.projectId, w.kube.cluster, w.kube.namespace)
    ensures o.listing.ListFailed? ==> r.st == st && |r.trace| == 1
    ensures forall c :: c in r.trace[1..] ==> c.CheckExists? || (c.DeleteApp? && c.cluster != w.ar.cluster)
    ensures forall x :: x in r.st.registry ==> x in st.registry
    ensures forall x :: x in r.st.live ==> x in st.live
    ensures forall x :: x in st.registry && x.cluster == w.ar.cluster ==> x in r.st.registry
    ensures forall x :: x in st.live && x.cluster == w.ar.cluster ==> x in r.st.live
  {
    var q := QueryList(appname, w.ar.projectId, w.kube.cluster, w.kube.namespace);
    match o.listing
    case ListFailed(_) => Effect(st, [q])
    case Listed(apps) =>
      var r := CleanupFrom(w, w.ar, st, o, apps, 0);
      assert ([q] + r.trace)[1..] == r.trace;
      Effect(r.st, [q] + r.trace)
  }

  /** updateAppRes: cleanup first, then reconfigure the found record; only
      the reconfigure error reaches the caller. */
  function UpdateAppRes(w: DeployWorker, st: State, o: Oracle, app: App): (r: Run)
    ensures 2 <= |r.trace| && r.trace[0].QueryList? && r.trace[|r.trace| - 1] == Reconfigure(app)
    ensures forall c :: c in r.trace[..|r.trace| - 1] ==> c.QueryList? || c.CheckExists? || c.DeleteApp?
    ensures r.trace == DeleteApplication(w, st, o, app.name).trace + [Reconfigure(app)]
    ensures r.st == DeleteApplication(w, st, o, app.name).st
    ensures r.err.None? <==> o.reconfigure.Succeeds?
    ensures o.reconfigure.Fails? ==> r.err == Some(Fault(o.reconfigure.msg))
    ensures forall x :: x in r.st.registry ==> x in st.registry
    ensures forall x :: x in st.registry && x.cluster == w.ar.cluster ==> x in r.st.registry
  {
    var c := DeleteApplication(w, st, o, app.name);
    var t := c.trace + [Reconfigure(app)];
    assert t[..|t| - 1] == c.trace;
    match o.reconfigure
    case Fails(m) => Run(Some(Fault(m)), c.st, t)
    case Succeeds => Run(None, c.st, t)
  }

  /** The record named `name` in the worker's cluster and namespace. */
  function Own(w: DeployWorker, name: string): App
  {
    App(w.ar.cluster, w.kube.namespace, name)
  }

  /** The record `Start` looks up for `param`. */
  function Key(w: DeployWorker, param: AppParam): App
  {
    Own(w, param.name)
  }

  /** The record the renderer's object stands for: it is placed in the
      cluster and namespace the worker passes, under the rendered name. */
  function Generated(w: DeployWorker, o: Oracle): App
    requires o.render.Rendered?
  {
    Own(w, o.render.name)
  }

  /** The cluster resource the worker's binding creates for record `app`. */
  function Resource(w: DeployWorker, app: App): App
  {
    App(w.kube.cluster, w.kube.namespace, app.name)
  }

  /** createKubeAppRes: render, clean up, create the cluster resource. */
  function CreateKubeAppRes(w: DeployWorker, st: State, o: Oracle, templateName: string,
                            param: AppParam): (r: KubeRun)
    ensures 1 <= |r.trace| && r.trace[0] == Render(w.ar.cluster, w.kube.namespace, templateName, w.ar.projectId)
    ensures r.err.None? <==> r.app.Some?
    ensures r.err.None? <==> o.render.Rendered? && o.resourceCreate.Succeeds?
    ensures o.render.RenderFailed? ==> r.err == Some(Fault(o.render.msg)) && r.st == st && |r.trace| == 1
    ensures o.render.Rendered? && o.resourceCreate.Fails? ==> r.err == Some(Fault(o.resourceCreate.msg))
    ensures r.app.Some? ==>
      && r.app.value == Generated(w, o)
      && Resource(w, r.app.value) in r.st.live
    ensures forall c :: c in r.trace ==>
      c.Render? || c.QueryList? || c.CheckExists? || c.DeleteApp? || c.CreateResource?
    ensures forall x :: x in r.st.registry ==> x in st.registry
    ensures forall x :: x in st.registry && x.cluster == w.ar.cluster ==> x in r.st.registry
  {
    var render := Render(w.ar.cluster, w.kube.namespace, templateName, w.ar.projectId);
    match o.render
    case RenderFailed(m) => KubeRun(None, Some(Fault(m)), st, [render])
    case Rendered(n) =>
      var app := Own(w, n);
      var c := DeleteApplication(w, st, o, param.name);
      var t := [render] + c.trace + [CreateResource(Resource(w, app))];
      match o.resourceCreate
      case Fails(m) => KubeRun(None, Some(Fault(m)), c.st, t)
      case Succeeds => KubeRun(Some(app), None, State(c.st.registry, c.st.live + {Resource(w, app)}), t)
  }

  /** Whether a successful create calls the post-create hook. */
  predicate Patches(w: DeployWorker)
  {
    w.extension.Some? && w.extension.value.patcher
  }

  /** createAppRes: create the cluster resource, persist the record, undo the
      resource if persisting fails, and run the patch hook on success. The
      record handed to the compensating registry delete is the one whose
      persist just failed: it has no row, so that delete removes none, and
      rows registered before the run stay. */
  function CreateAppRes(w: DeployWorker, st: State, o: Oracle, templateName: string,
                        param: AppParam): (r: Run)
    ensures r.err.None? <==> o.render.Rendered? && o.resourceCreate.Succeeds? && o.recordCreate.Succeeds?
    ensures o.render.RenderFailed? ==> r.err == Some(Fault(o.render.msg)) && r.st == st && |r.trace| == 1
    ensures o.render.Rendered? && o.resourceCreate.Fails? ==> r.err == Some(Fault(o.resourceCreate.msg))
    ensures o.render.Rendered? && o.resourceCreate.Succeeds? && o.recordCreate.Fails? ==>
      r.err == Some(Fault(o.recordCreate.msg))
    ensures r.err.None? ==>
      && Generated(w, o) in r.st.registry
      && Resource(w, Generated(w, o)) in r.st.live
    ensures forall x :: x in r.st.registry ==>
      x in st.registry || (r.err.None? && x == Generated(w, o))
    ensures forall x :: x in st.registry && x.cluster == w.ar.cluster ==> x in r.st.registry
  {
    var k := CreateKubeAppRes(w, st, o, templateName, param);
    if k.err.Some? then Run(k.err, k.st, k.trace)
    else
      var app := k.app.value;
      var t := k.trace + [CreateRecord(app)];
      match o.recordCreate
      case Fails(m) =>
        var res := Resource(w, app);
        var st1 := if o.resourceDelete.Succeeds? then State(k.st.registry, k.st.live - {res}) else k.st;
        Run(Some(Fault(m)), st1, t + [DeleteResource(res), DeleteRecord(app)])
      case Succeeds =>
        Run(None, Insert(k.st, app), if Patches(w) then t + [Patch(app)] else t)
  }

  /** Start: uniqueness check, then update the registered record or create a
      new one; any other lookup error is returned as is. */
  function Start(w: DeployWorker, st: State, o: Oracle, templateName: string, param: AppParam): (r: Run)
    requires ExtensionReadable(w, st, o, param.name)
    ensures 1 <= |r.trace| && r.trace[0] == QueryExotic(w.ar.cluster, w.kube.namespace, param.name)
    ensures o.exoticQuery.Fails? ==> r.err == Some(Fault(o.exoticQuery.msg)) && r.st == st && |r.trace| == 1
    ensures r.err.None? ==>
      && o.exoticQuery.Succeeds? && Exotic(st.registry, w.ar.cluster, w.kube.namespace, param.name) == []
      && o.lookup.Succeeds?
      && (Key(w, param) in st.registry ==>
            Key(w, param) in r.st.registry)
      && (Key(w, param) !in st.registry ==>
            o.render.Rendered? && Generated(w, o) in r.st.registry)
  {
    var chk := CheckAppRes(w, st, o, param.name);
    if chk.err.Some? then chk
    else
      var q := chk.trace + [QueryByName(w.ar.cluster, w.kube.namespace, param.name)];
      match GetAppByName(st, o, Key(w, param))
      case Found(app) =>
        var u := UpdateAppRes(w, st, o, app);
        Run(u.err, u.st, q + u.trace)
      case LookupErr(e) =>
        if e != NoRows then Run(Some(e), st, q)
        else
          var c := CreateAppRes(w, st, o, templateName, param);
          Run(c.err, c.st, q + c.trace)
  }
}
